=== FILE: README.md ===
# Fruit quality classifier: a Dafny model of its decision logic

The repository is a Next.js front end and a FastAPI inference service. A user uploads a
fruit photo and gets a verdict, `"Good"` or `"Bad"`, with a confidence. Around the two
opaque collaborators, a browser canvas and a Keras model, sit small decision procedures.
This project models each of them as a total, pure Dafny function. The foreign part
becomes an input datatype.

- `ImageProcessor` (`image_processor.dfy`) covers the upload check in `validateImageFile`: a MIME whitelist and a 10 MiB ceiling, tested in a fixed order. It also covers the output of `resizeImage`: the canvas is always exactly the configured size.
- `ImageUploader` (`image_uploader.dfy`) covers `handleFile`: validate, then resize, then report exactly one outcome while the processing flag is up. It also covers the `handleDrop` guard.
- `MlService` (`ml_service.dfy`) covers `MLServiceClient`:
  - URL defaults and the fail-fast check;
  - the data-URI strip, `split(",")[1]`;
  - the request shape;
  - how each transport outcome becomes a coded `MLServiceError`, a rethrow or a passthrough.
- `ClassifyRoute` (`classify_route.dfy`) covers `/api/classify`: thrown error to HTTP status 400, 500, 503 or 504, and the constant `GET`.
- `Predictor` (`predictor.dfy`) covers `predict_quality`:
  - the branch on output width (sigmoid threshold or two-way argmax);
  - the clamp to [0, 1];
  - the demo-mode range;
  - the `RuntimeError` wrapping.
- `Server` (`server.dfy`) covers the `/predict` stage ladder (decode, dimension check, preprocess, predict), the checks of `/predict-file`, the `demo_mode` flag and the constants.
- Shared modules:
  - `Outcomes` defines `Option` and `Result`.
  - `Strings` models JavaScript `includes`, `startsWith` and `split`, and decimal rendering of numbers. It proves a split/join round trip and a render/parse round trip.
  - `JsValues` models JSON values, JavaScript truthiness and thrown values.

Foreign inputs:

| Foreign part | Modelled as |
|---|---|
| What the browser did | `Loading` |
| What `fetch` and `response.json()` did | `Transport`, `Body` |
| What decoding, PIL and the model did | `Decoding`, `Step`, `Model` |
| Python's `random.random()` values | `DemoDraws` |
| The clock | `elapsed` |

Three facts about the code that are easy to misread:

- A missing service URL throws a plain `Error` from `classify`, which the route answers with 500.
- `classify` checks nothing in a successful answer. It copies `result`, `confidence`, `processing_time` and `demo_mode` from the body whatever they hold.
- The object `classify` returns has the fields `processing_time` and `demo_mode`. The `ClassificationResponse` declared in `types/index.ts` names the time `processingTime`, which is not what the client returns.

## Model

| member | source | states |
|---|---|---|
| `ImageProcessor.ValidateImageFile` | nextjs-app/lib/imageProcessor.ts:51-67 | valid exactly when the type is one of the three accepted JPEG/PNG types and the size is at most 10 MiB; an error is present exactly when invalid; a bad type reports the type message, an oversized accepted type the size message |
| `ImageProcessor.TypeCheckedBeforeSize` | nextjs-app/lib/imageProcessor.ts:58-64 | a file with a bad type that is also oversized reports the type error |
| `ImageProcessor.SizeBoundary` | nextjs-app/lib/imageProcessor.ts:56-64 | 10485760 bytes are accepted; 10485761 bytes give "Image size must be less than 10MB" |
| `ImageProcessor.ResizeImage` | nextjs-app/lib/imageProcessor.ts:13-49 | resolves exactly when the file was read, the image loaded and a 2D context exists; otherwise rejects with the failing stage's message; on success the canvas is `config.width` by `config.height`, the whole source is drawn onto it at the origin, and it is encoded as JPEG at `config.quality` |
| `ImageProcessor.ResizeIgnoresSourceSize` | nextjs-app/lib/imageProcessor.ts:24-35 | two source images of any sizes and aspect ratios give the same output canvas size |
| `ImageProcessor.DefaultResizeIs128Square` | nextjs-app/lib/imageProcessor.ts:7-11 | with the default configuration the output is 128 by 128 at quality 0.9 |
| `ImageUploader.FailureMessage` | nextjs-app/components/ImageUploader.tsx:38-41 | an `Error` reports its own message; any other rejection reports "Failed to process image" |
| `ImageUploader.HandleFile` | nextjs-app/components/ImageUploader.tsx:23-45 | the flag is raised first and is down at the end on every path; resize is called exactly when validation passes; an invalid file reports the validator's message and is never processed; a resolved resize reports the image with the original file; a rejected one reports its message; exactly one callback happens, and the flag stays up from the start until that callback; the flag is also up once the resize is called; the resize is called at most once, and for a valid file it comes before the callback that reports its result |
| `ImageUploader.Settle` | nextjs-app/components/ImageUploader.tsx:36 | the awaited resize resolves with the data URL exactly when the resize succeeded, else rejects with an `Error` carrying the stage message |
| `ImageUploader.ResizeFailureReportsStage` | nextjs-app/components/ImageUploader.tsx:36-41 | with the real resize, a failure reports the stage message, never the fallback text |
| `ImageUploader.InvalidFileNeverResized` | nextjs-app/components/ImageUploader.tsx:28-33 | an unacceptable file is neither resized nor reported as processed |
| `ImageUploader.HandleDrop` | nextjs-app/components/ImageUploader.tsx:47-55 | a drop is handled exactly when the uploader is neither disabled nor busy and the drop holds a file; only the first file is handled |
| `ImageUploader.DropsIgnoredWhileHandling` | nextjs-app/components/ImageUploader.tsx:23-55 | a drop arriving while the resize is in flight or when a callback fires is ignored; after `handleFile` ends, an enabled uploader takes a drop that holds a file |
| `MlService.NewClient` | nextjs-app/lib/mlService.ts:7-10 | the base URL is the argument if non-empty, else the environment value if non-empty, else empty, and it is empty exactly when both are missing or empty; the timeout defaults to 30000 |
| `MlService.StripDataUriPrefix` | nextjs-app/lib/mlService.ts:22-25 | input without a comma is sent unchanged; otherwise the text between the first and second comma is sent; the payload never contains a comma |
| `MlService.StripIsIdempotent` | nextjs-app/lib/mlService.ts:22-25 | stripping a stripped payload changes nothing |
| `MlService.StripRemovesDataUrlHeader` | nextjs-app/lib/mlService.ts:22-25 | a data URL `header,data` with comma-free parts sends exactly `data` |
| `MlService.HttpCode` | nextjs-app/lib/mlService.ts:52 | the error code is `HTTP_` followed by the status written in decimal with no leading zero, so the numeral reads back as the status |
| `MlService.HttpFailure` | nextjs-app/lib/mlService.ts:45-53 | a non-ok answer throws an `MLServiceError` coded `HTTP_<status>`; its message is `detail` if truthy, else `message` if truthy, else "ML service error: <status>"; an unreadable body counts as `{}`; a `null` body makes the property read itself throw a `TypeError` |
| `MlService.HttpCodeIdentifiesStatus` | nextjs-app/lib/mlService.ts:52 | two statuses give the same `HTTP_<status>` code exactly when they are equal |
| `MlService.CatchClassify` | nextjs-app/lib/mlService.ts:66-85 | an `AbortError` becomes `TIMEOUT`; otherwise an `Error` whose message contains "fetch" becomes `CONNECTION_ERROR`; anything else is rethrown unchanged |
| `MlService.CatchIsIdempotent` | nextjs-app/lib/mlService.ts:66-85 | passing a classified error through the catch again changes nothing, because neither replacement message mentions "fetch" |
| `MlService.CatchOutcomes` | nextjs-app/lib/mlService.ts:66-85 | the catch yields the timeout error, the connection error or the original error; a `TIMEOUT` code comes only from an abort or from an `MLServiceError` already thrown |
| `MlService.Classify` | nextjs-app/lib/mlService.ts:12-87 | nothing is sent exactly when the URL is empty, and then it throws the plain "ML service URL not configured" error; otherwise it POSTs JSON `{image: payload}` to `baseUrl + "/predict"`; a rejection and the HTTP error both pass through the catch; an ok answer whose body cannot be parsed throws the parser's error through the catch, and a `null` body throws the `TypeError` of reading `result` through the catch; it resolves exactly when an ok answer has a readable non-null body, copying the four fields |
| `MlService.AbortIsTimeout` | nextjs-app/lib/mlService.ts:66-76 | an aborted fetch always ends with the `TIMEOUT` error |
| `MlService.HttpErrorKeepsItsCode` | nextjs-app/lib/mlService.ts:45-54 | a non-ok answer whose message does not mention "fetch" throws the `HTTP_<status>` error unchanged |
| `MlService.HttpErrorMentioningFetchBecomesConnectionError` | nextjs-app/lib/mlService.ts:45-83 | because the HTTP error is thrown inside the `try`, a `detail` that mentions "fetch" turns it into `CONNECTION_ERROR` |
| `MlService.Http503WithDetail` | nextjs-app/lib/mlService.ts:45-54 | a 503 with `{"detail": "model overloaded"}` throws that message with code `HTTP_503` |
| `MlService.SuccessExample` | nextjs-app/lib/mlService.ts:56-65 | a 200 with result, confidence and processing time resolves with exactly those values and an undefined `demo_mode` |
| `MlService.SuccessIsUnchecked` | nextjs-app/lib/mlService.ts:56-65 | any ok answer with an object body resolves, copying `result` and `confidence` unchecked |
| `ClassifyRoute.StatusFor` | nextjs-app/app/api/classify/route.ts:20-35 | 504 exactly for an `MLServiceError` coded `TIMEOUT`, 503 exactly for any other `MLServiceError`, 500 exactly for anything else |
| `ClassifyRoute.ErrorResponse` | nextjs-app/app/api/classify/route.ts:20-35 | an `MLServiceError` answer carries its message and code; anything else is "Internal server error" |
| `ClassifyRoute.Post` | nextjs-app/app/api/classify/route.ts:4-36 | an unreadable body is 500 and a missing or falsy image is 400, both without calling the client; otherwise the client runs with the environment URL, and its success is returned unchanged with 200 and its error mapped by status |
| `ClassifyRoute.PostStatuses` | nextjs-app/app/api/classify/route.ts:4-36 | the route answers only 200, 400, 500, 503 or 504, and 200 exactly when it returns a classification |
| `ClassifyRoute.MissingImageIsBadRequest` | nextjs-app/app/api/classify/route.ts:9-11 | a missing or empty image gives 400 "No image provided" and sends nothing |
| `ClassifyRoute.UnconfiguredIsInternalError` | nextjs-app/app/api/classify/route.ts:31-34 | with no service URL the route answers 500 and sends nothing |
| `ClassifyRoute.AbortIsGatewayTimeout` | nextjs-app/app/api/classify/route.ts:23-29 | an aborted fetch is answered 504 with the timeout message and code |
| `ClassifyRoute.HttpErrorIsServiceUnavailable` | nextjs-app/app/api/classify/route.ts:23-29 | a service error status is answered 503 with the `HTTP_<status>` code |
| `ClassifyRoute.HttpCodeIsNotTimeout` | nextjs-app/app/api/classify/route.ts:23-29 | no `HTTP_<status>` code equals `TIMEOUT`, so an HTTP error never takes the 504 branch |
| `ClassifyRoute.Get` | nextjs-app/app/api/classify/route.ts:38-40 | `GET` answers `{status: "ok", service: "classification-api"}` |
| `Predictor.Clamp` | ml-service/utils.py:84 | the result lies in [0, 1], is the identity on [0, 1], and is 0 below and 1 above |
| `Predictor.ClampIdempotent` | ml-service/utils.py:84 | clamping twice equals clamping once |
| `Predictor.ClampMonotone` | ml-service/utils.py:84 | clamping preserves order |
| `Predictor.ArgMax` | ml-service/utils.py:78 | the index holds a maximum of the row and no earlier entry reaches it, so ties go to the lowest index |
| `Predictor.Demo` | ml-service/utils.py:59-64 | the demo verdict is "Good" or "Bad", "Good" exactly when the coin exceeds 0.5, with confidence in [0.75, 0.99] |
| `Predictor.Interpret` | ml-service/utils.py:70-84 | width 1: "Good" when the value exceeds 0.5 and "Bad" otherwise, confidence the clamped value; width 2: the class of the larger output (index 0 on a tie), confidence the clamped larger output, or an index error when the class list is too short; any other width fails naming the shape |
| `Predictor.PredictQuality` | ml-service/utils.py:44-89 | with no model the demo answer is returned; every returned confidence lies in [0, 1]; every failure is a message starting "Model prediction failed: "; a raising model is wrapped the same way |
| `Predictor.VerdictIsBinary` | ml-service/utils.py:71-79 | with the class names `["Bad", "Good"]` every verdict is "Good" or "Bad" |
| `Predictor.SigmoidHalfIsBad` | ml-service/utils.py:71-74 | a sigmoid output of exactly 0.5 is "Bad" with confidence 0.5 |
| `Predictor.SigmoidBadReportsRawValue` | ml-service/utils.py:73-84 | a width-1 "Bad" verdict reports the raw (clamped) sigmoid value, at most 0.5, not one minus it |
| `Predictor.SoftmaxTieTakesFirstClass` | ml-service/utils.py:75-79 | two equal outputs give the first class name |
| `Predictor.SoftmaxPicksLargest` | ml-service/utils.py:75-79 | with two outputs the confidence is at least each clamped output and the verdict names the argmax class |
| `Predictor.OtherWidthsFail` | ml-service/utils.py:80-89 | an output width other than 1 or 2 fails with "Model prediction failed: Unexpected model output shape: (1, w)" |
| `Server.PreprocessImage` | ml-service/app.py:66-91 | preprocessing fails exactly when the library work raised, and then always as a `ValueError` prefixed "Image preprocessing failed: " |
| `Server.PredictStep` | ml-service/app.py:93-128 | the service's copy of `predict_quality` with `CLASS_NAMES`: success carries `predict_quality`'s own verdict and confidence, which are "Good" or "Bad" and in [0, 1]; failure is `predict_quality`'s message raised as a `RuntimeError` prefixed "Model prediction failed: " |
| `Server.PredictLadder` | ml-service/app.py:198-249 | a decode failure gives 400 "Invalid image data: ..."; a zero width or height gives 400 "Image has invalid dimensions"; success needs every stage to pass and copies the prediction, time and demo flag; failures are 400 or 500, and 400 exactly for decode, dimensions or a preprocessing `ValueError`; a preprocessing `ValueError` and a prediction `RuntimeError` answer with their own message as the detail; any other exception at those stages is 500 "Unexpected error: ..." |
| `Server.ClassifyFruit` | ml-service/app.py:190-249 | it succeeds exactly when decoding gives a non-empty image, preprocessing completes and `predict_quality` succeeds, and then the answer is `predict_quality`'s verdict and confidence with the measured time, and `demo_mode` holds exactly when no model is loaded; 400 exactly for a decode, dimension or preprocessing failure; every failure is 400 or 500; a decode failure is 400 "Invalid image data: <msg>"; a preprocessing failure is 400 "Image preprocessing failed: <msg>"; every 500 is a prediction failure whose detail is exactly `predict_quality`'s message |
| `Server.ZeroSizeRejectedBeforePreprocessing` | ml-service/app.py:209-214 | a zero-sized image is rejected whatever preprocessing and prediction would do |
| `Server.DecodeFailureComesFirst` | ml-service/app.py:199-207 | a decode failure is 400 "Invalid image data: ..." whatever the later stages would do |
| `Server.UnexpectedOnlyForOtherExceptions` | ml-service/app.py:243-249 | an exception of a class the stage does not expect becomes 500 "Unexpected error: ..." |
| `Server.ClassifyFruitFile` | ml-service/app.py:251-289 | 400 "File must be an image" exactly when a content type is present and does not start with "image/"; every other failure, including a missing content type and preprocessing, is 500 "Error processing file: " followed by the failing stage's message: the open error, "Image preprocessing failed: <msg>", or `predict_quality`'s message; success needs every stage and answers `predict_quality`'s verdict and confidence with the measured time, `demo_mode` holding exactly without a model |
| `Server.PreprocessFailureStatusDiffers` | ml-service/app.py:283-289 | the same preprocessing failure is 400 on `/predict` but 500 on `/predict-file` |
| `Server.ImageSizeMatchesClient` | ml-service/app.py:31-32 | the service's 128 equals the client's default width and height and the size `utils.py` uses |

## Left out

- Canvas, `FileReader`, image decoding and JPEG encoding inside `resizeImage` are browser APIs. They appear only as the `Loading` outcome, with the encoded text as an input.
- The `AbortController`/`setTimeout` race and `clearTimeout` are timing. An abort is a rejection with an `Error` named `"AbortError"`, and the client's `timeout` field is stored but drives nothing.
- `fetch`, `response.json()` and the `console` logging are I/O. They are the `Transport` and `Body` inputs, and logging has no effect in the model.
- JavaScript's number-to-text formatting is not computed. A JSON number carries the text `String(v)` gives for it.
- `ClassifyRoute.Post`: a truthy `image` that is not a string (a number, array or object) is not modelled. The body's image is a string or absent.
- `ImageUploader.HandleFile`: a parent callback that itself throws is not modelled. The callbacks are parent code.
- `handleChange` is not modelled. It takes the first chosen file and calls `handleFile` with no disabled or busy guard.
- PIL resize and convert, numpy normalisation, TensorFlow loading and `model.predict` are foreign libraries and float numerics. The model output is the first row as a sequence of reals, and preprocessing is a completed-or-raised step. NaN outputs are not modelled.
- The batch dimension of the prediction is fixed at one image, as the service always sends.
- Demo-mode randomness is modelled as two draws in [0, 1) given as input. `random.uniform` is computed over reals, without float rounding.
- `load_model`, the startup hook and the informational endpoints `/`, `/health` and `/model-info` report configuration only. They are not modelled.
- `ml-service/main.py` is an incomplete duplicate of the handlers in `app.py` and is not part of this model.
- The page, result, header, footer, feature and error components, and the type declarations in `types/index.ts`, are presentation and declarations only.

=== FILE: classify_route.dfy ===
/** The `/api/classify` route of `app/api/classify/route.ts`: it forwards the image to a
    fresh `MLServiceClient` and maps what the client throws to an HTTP status. */
module ClassifyRoute {
  import opened Outcomes
  import opened Strings
  import opened JsValues
  import opened MlService

  /** The request body as `POST` sees it: `request.json()` rejected, or the body was
      `null` so reading `.image` threw (`Unreadable`); or an object whose `image`
      property is `image`, `None` standing for a missing or non-string falsy value. */
  datatype RouteBody = Unreadable(error: Thrown) | Body(image: Option<string>)

  /** The JSON the route answers with. */
  datatype Reply =
    | Classified(response: ClassificationResponse)
    | ErrorReply(error: string, code: Option<string>)
    | Health(status: string, service: string)

  datatype RouteResponse = RouteResponse(status: nat, reply: Reply)

  /** A run of `POST`: the request the client sent to the service, if any, and the answer. */
  datatype PostRun = PostRun(sent: Option<Request>, response: RouteResponse)

  const InternalError := RouteResponse(500, ErrorReply("Internal server error", None))
  const NoImage := RouteResponse(400, ErrorReply("No image provided", None))

  /** The status the `catch` of `POST` answers with for thrown value `e`. */
  function StatusFor(e: Thrown): (status: nat)
    ensures status == 504 <==> e.ServiceError? && e.code == TimeoutCode
    ensures status == 503 <==> e.ServiceError? && e.code != TimeoutCode
    ensures status == 500 <==> !e.ServiceError?
  {
    if e.ServiceError? then (if e.code == TimeoutCode then 504 else 503) else 500
  }

  /** The answer for thrown value `e`: an `MLServiceError` keeps its message and code,
      anything else becomes the generic internal error. */
  function ErrorResponse(e: Thrown): (r: RouteResponse)
    ensures r.status == StatusFor(e)
    ensures e.ServiceError? ==> r.reply == ErrorReply(e.message, Some(e.code))
    ensures !e.ServiceError? ==> r == InternalError
  {
    if e.ServiceError? then RouteResponse(StatusFor(e), ErrorReply(e.message, Some(e.code)))
    else InternalError
  }

  /** `POST`, with `envUrl` the configured service URL and `transport` what the
      client's `fetch` did. */
  function Post(body: RouteBody, envUrl: Option<string>, transport: Transport): (run: PostRun)
    ensures body.Unreadable? ==> run == PostRun(None, InternalError)
    ensures body.Body? && !Given(body.image) ==> run == PostRun(None, NoImage)
    ensures body.Body? && Given(body.image) ==>
              var call := Classify(NewClient(None, envUrl, None), body.image.value, transport);
              && run.sent == call.sent
              && (call.outcome.Ok? ==> run.response == RouteResponse(200, Classified(call.outcome.value)))
              && (call.outcome.Err? ==> run.response == ErrorResponse(call.outcome.error))
  {
    match body
    case Unreadable(_) => PostRun(None, InternalError)
    case Body(image) =>
      if !Given(image) then PostRun(None, NoImage)
      else
        var call := Classify(NewClient(None, envUrl, None), image.value, transport);
        match call.outcome
        case Ok(response) => PostRun(call.sent, RouteResponse(200, Classified(response)))
        case Err(e) => PostRun(call.sent, ErrorResponse(e))
  }

  /** `POST` only ever answers 200, 400, 500, 503 or 504, and 200 exactly when the client
      returned a response, which is passed on unchanged. */
  lemma PostStatuses(body: RouteBody, envUrl: Option<string>, transport: Transport)
    ensures Post(body, envUrl, transport).response.status in {200, 400, 500, 503, 504}
    ensures var r := Post(body, envUrl, transport).response;
            r.status == 200 <==> r.reply.Classified?
  {
  }

  /** Without an image nothing is sent and the answer is 400. */
  lemma MissingImageIsBadRequest(envUrl: Option<string>, transport: Transport)
    ensures Post(Body(None), envUrl, transport) == PostRun(None, NoImage)
    ensures Post(Body(Some("")), envUrl, transport) == PostRun(None, NoImage)
  {
  }

  /** A missing service URL is a plain `Error`, so the route answers 500, not 503. */
  lemma UnconfiguredIsInternalError(image: string, envUrl: Option<string>, transport: Transport)
    requires image != "" && !Given(envUrl)
    ensures Post(Body(Some(image)), envUrl, transport) == PostRun(None, InternalError)
  {
  }

  /** An aborted fetch is answered 504 with the timeout message and code. */
  lemma AbortIsGatewayTimeout(image: string, envUrl: Option<string>, message: string)
    requires image != "" && Given(envUrl)
    ensures Post(Body(Some(image)), envUrl, Rejected(Failure("AbortError", message))).response
              == RouteResponse(504, ErrorReply(TimeoutMessage, Some(TimeoutCode)))
  {
  }

  /** A non-ok service status, once the client has coded it `HTTP_<status>`, is answered 503. */
  lemma HttpErrorIsServiceUnavailable(image: string, envUrl: Option<string>, status: nat, body: Body)
    requires image != "" && Given(envUrl) && !Ok2xx(status) && !body.NullBody?
    requires !Contains(HttpFailure(status, body).message, "fetch")
    ensures Post(Body(Some(image)), envUrl, Responded(status, body)).response
              == RouteResponse(503, ErrorReply(HttpFailure(status, body).message, Some(HttpCode(status))))
  {
  }

  /** No `HTTP_` code is the timeout code. */
  lemma HttpCodeIsNotTimeout(status: nat)
    ensures HttpCode(status) != TimeoutCode
  {
  }

  /** `GET`: the constant health answer. */
  function Get(): (r: RouteResponse)
    ensures r.status == 200 && r.reply == Health("ok", "classification-api")
  {
    RouteResponse(200, Health("ok", "classification-api"))
  }
}

=== FILE: image_processor.dfy ===
/** The upload checks and the canvas resize of `lib/imageProcessor.ts`. The browser
    work (FileReader, Image, canvas, JPEG encoding) is foreign: what it did is an input. */
module ImageProcessor {
  import opened Outcomes

  /** Target size and JPEG quality of the canonical image. */
  datatype ImageConfig = ImageConfig(width: nat, height: nat, quality: real)

  /** The configuration the uploader uses: 128 by 128 pixels at quality 0.9. */
  const DefaultImageConfig := ImageConfig(128, 128, 0.9)

  /** The MIME types accepted for upload. */
  const ValidTypes: seq<string> := ["image/jpeg", "image/png", "image/jpg"]

  /** The upload ceiling: ten mebibytes. */
  const MaxSize: nat := 10 * 1024 * 1024

  const TypeErrorMessage := "Please upload a JPEG or PNG image"
  const SizeErrorMessage := "Image size must be less than 10MB"

  /** The parts of a browser `File` the checks read: its declared type and byte size. */
  datatype FileInfo = FileInfo(mimeType: string, size: nat)

  /** `{ valid, error? }`: `error` is `None` when the property is absent. */
  datatype Validation = Validation(valid: bool, error: Option<string>)

  /** A file the uploader may resize: an accepted type and at most `MaxSize` bytes. */
  predicate Acceptable(f: FileInfo)
  {
    f.mimeType in {"image/jpeg", "image/png", "image/jpg"} && f.size <= MaxSize
  }

  /** `validateImageFile`: the type check first, then the size check. */
  function ValidateImageFile(f: FileInfo): (v: Validation)
    ensures v.valid <==> Acceptable(f)
    ensures v.error.Some? <==> !v.valid
    ensures f.mimeType !in ValidTypes ==> v.error == Some(TypeErrorMessage)
    ensures f.mimeType in ValidTypes && f.size > MaxSize ==> v.error == Some(SizeErrorMessage)
  {
    if f.mimeType !in ValidTypes then Validation(false, Some(TypeErrorMessage))
    else if f.size > MaxSize then Validation(false, Some(SizeErrorMessage))
    else Validation(true, None)
  }

  /** A rejected type is reported as such even when the file is also too large. */
  lemma TypeCheckedBeforeSize(f: FileInfo)
    requires f.mimeType !in ValidTypes && f.size > MaxSize
    ensures ValidateImageFile(f).error == Some(TypeErrorMessage)
  {
  }

  /** The size bound is inclusive: 10485760 bytes pass, one byte more does not. */
  lemma SizeBoundary(t: string)
    requires t in ValidTypes
    ensures ValidateImageFile(FileInfo(t, 10485760)).valid
    ensures ValidateImageFile(FileInfo(t, 10485761)) == Validation(false, Some(SizeErrorMessage))
  {
  }

  /** Width and height in pixels. */
  datatype Dims = Dims(width: nat, height: nat)

  /** `ctx.drawImage(img, x, y, w, h)`: the whole source image stretched onto the rectangle. */
  datatype DrawCall = DrawCall(source: Dims, x: int, y: int, target: Dims)

  /** The resolved value of `resizeImage` together with what was done to produce it. */
  datatype Resized = Resized(dataUrl: string, canvas: Dims, draw: DrawCall, mimeType: string, quality: real)

  /** What the browser did with the file: the reader failed, the image failed to load,
      or it loaded with `source` size, a 2D context was or was not available, and
      `toDataURL` produced `encoded`. */
  datatype Loading =
    | ReadFailed
    | LoadFailed
    | Loaded(source: Dims, hasContext: bool, encoded: string)

  /** `resizeImage`: the promise resolves with the canvas encoding or rejects with an `Error`
      whose message names the failing stage. */
  function ResizeImage(config: ImageConfig, loading: Loading): (r: Result<Resized, string>)
    ensures r.Ok? <==> loading.Loaded? && loading.hasContext
    ensures loading.ReadFailed? ==> r == Err("Failed to read file")
    ensures loading.LoadFailed? ==> r == Err("Failed to load image")
    ensures loading.Loaded? && !loading.hasContext ==> r == Err("Failed to get canvas context")
    ensures r.Ok? ==> r.value.canvas == Dims(config.width, config.height)
    ensures r.Ok? ==> r.value.draw == DrawCall(loading.source, 0, 0, r.value.canvas)
    ensures r.Ok? ==> r.value.mimeType == "image/jpeg" && r.value.quality == config.quality
    ensures r.Ok? ==> r.value.dataUrl == loading.encoded
  {
    match loading
    case ReadFailed => Err("Failed to read file")
    case LoadFailed => Err("Failed to load image")
    case Loaded(source, hasContext, encoded) =>
      if !hasContext then Err("Failed to get canvas context")
      else
        var canvas := Dims(config.width, config.height);
        Ok(Resized(encoded, canvas, DrawCall(source, 0, 0, canvas), "image/jpeg", config.quality))
  }

  /** The output size depends only on the configuration: two source images of any
      sizes and aspect ratios come out with the same canvas. */
  lemma ResizeIgnoresSourceSize(config: ImageConfig, a: Dims, b: Dims, encodedA: string, encodedB: string)
    ensures var ra := ResizeImage(config, Loaded(a, true, encodedA));
            var rb := ResizeImage(config, Loaded(b, true, encodedB));
            ra.Ok? && rb.Ok? && ra.value.canvas == rb.value.canvas
  {
  }

  /** With the default configuration every resized image is 128 by 128 at quality 0.9. */
  lemma DefaultResizeIs128Square(loading: Loading)
    requires ResizeImage(DefaultImageConfig, loading).Ok?
    ensures ResizeImage(DefaultImageConfig, loading).value.canvas == Dims(128, 128)
    ensures ResizeImage(DefaultImageConfig, loading).value.quality == 0.9
  {
  }
}

=== FILE: image_uploader.dfy ===
/** The file handling of `components/ImageUploader.tsx`: validate, then resize, report
    exactly one outcome through the callbacks, and keep the processing flag raised for
    the duration. Rendering and drag styling are not modelled. */
module ImageUploader {
  import opened Outcomes
  import opened ImageProcessor

  /** The reason a rejected promise carries: an `Error` with its message, or a value
      that is not an `Error`. */
  datatype Rejection = ErrorObject(message: string) | NonErrorValue

  /** How `await resizeImage(file)` settled. */
  datatype ResizeOutcome = Resolved(dataUrl: string) | Rejected(reason: Rejection)

  /** The observable effects of `handleFile`, in the order they happen. */
  datatype Effect =
    | SetProcessing(on: bool)
    | ResizeCalled(file: FileInfo)
    | ErrorReported(message: string)
    | ImageProcessed(image: string, file: FileInfo)

  /** The effects that call back into the parent component. */
  predicate IsCallback(e: Effect)
  {
    e.ErrorReported? || e.ImageProcessed?
  }

  /** How many callbacks a trace makes. */
  function Callbacks(trace: seq<Effect>): nat
  {
    if |trace| == 0 then 0
    else Callbacks(trace[..|trace| - 1]) + (if IsCallback(trace[|trace| - 1]) then 1 else 0)
  }

  /** The value of `isProcessing` after `trace`, starting from `false`. */
  function ProcessingAfter(trace: seq<Effect>): bool
  {
    if |trace| == 0 then false
    else if trace[|trace| - 1].SetProcessing? then trace[|trace| - 1].on
    else ProcessingAfter(trace[..|trace| - 1])
  }

  const FallbackMessage := "Failed to process image"

  /** The `catch` message: the `Error`'s message, or the fallback for anything else. */
  function FailureMessage(reason: Rejection): (m: string)
    ensures reason.ErrorObject? ==> m == reason.message
    ensures reason.NonErrorValue? ==> m == FallbackMessage
  {
    match reason
    case ErrorObject(message) => message
    case NonErrorValue => FallbackMessage
  }

  /** `handleFile(file)`, where `resize` is how `resizeImage(file)` would settle. The
      early `return` for an invalid file clears the flag and then runs the `finally`,
      which clears it again. */
  function HandleFile(file: FileInfo, resize: ResizeOutcome): (trace: seq<Effect>)
    ensures 2 <= |trace| && trace[0] == SetProcessing(true) && trace[|trace| - 1] == SetProcessing(false)
    ensures !ProcessingAfter(trace)
    ensures ResizeCalled(file) in trace <==> ValidateImageFile(file).valid
    ensures forall k :: 0 <= k < |trace| && trace[k].ResizeCalled? ==> trace[k].file == file
    ensures !ValidateImageFile(file).valid ==>
              && ErrorReported(ValidateImageFile(file).error.value) in trace
              && forall k :: 0 <= k < |trace| ==> !trace[k].ImageProcessed?
    ensures ValidateImageFile(file).valid && resize.Resolved? ==> ImageProcessed(resize.dataUrl, file) in trace
    ensures ValidateImageFile(file).valid && resize.Rejected? ==>
              && ErrorReported(FailureMessage(resize.reason)) in trace
              && forall k :: 0 <= k < |trace| ==> !trace[k].ImageProcessed?
    ensures Callbacks(trace) == 1
    ensures forall k :: 0 <= k < |trace| && IsCallback(trace[k]) ==> ProcessingAfter(trace[..k])
    ensures forall k :: 0 <= k < |trace| && trace[k].ResizeCalled? ==> ProcessingAfter(trace[..k + 1])
    ensures ValidateImageFile(file).valid ==>
              forall k :: 0 <= k < |trace| && IsCallback(trace[k]) ==> ResizeCalled(file) in trace[..k]
    ensures forall j, k :: 0 <= j < k < |trace| && trace[j].ResizeCalled? ==> !trace[k].ResizeCalled?
    ensures forall k :: 0 < k <= |trace| && Callbacks(trace[..k]) == 0 ==> ProcessingAfter(trace[..k])
  {
    var validation := ValidateImageFile(file);
    if !validation.valid then
      RejectedTraceKeepsFlag(validation.error.value);
      [SetProcessing(true), ErrorReported(validation.error.value), SetProcessing(false), SetProcessing(false)]
    else
      var callback :=
        match resize
        case Resolved(dataUrl) => ImageProcessed(dataUrl, file)
        case Rejected(reason) => ErrorReported(FailureMessage(reason));
      ResizedTraceKeepsFlag(file, callback);
      [SetProcessing(true), ResizeCalled(file), callback, SetProcessing(false)]
  }

  /** The flag facts of the trace for a file that fails validation: one callback, made
      while the flag is up, and the flag stays up until then. */
  lemma RejectedTraceKeepsFlag(message: string)
    ensures var trace := [SetProcessing(true), ErrorReported(message), SetProcessing(false), SetProcessing(false)];
            && Callbacks(trace) == 1
            && (forall k :: 0 <= k < |trace| && IsCallback(trace[k]) ==> ProcessingAfter(trace[..k]))
            && (forall k :: 0 < k <= |trace| && Callbacks(trace[..k]) == 0 ==> ProcessingAfter(trace[..k]))
  {
    var trace := [SetProcessing(true), ErrorReported(message), SetProcessing(false), SetProcessing(false)];
    assert trace[..1] == [SetProcessing(true)];
    assert trace[..3][..2] == trace[..2] && trace[..2][..1] == trace[..1];
    assert trace[..1][..0] == [];
    assert Callbacks(trace[..1]) == 0;
    assert Callbacks(trace[..2]) == 1;
    assert Callbacks(trace[..3]) == 1;
    assert trace[..4][..3] == trace[..3] && trace[..4] == trace;
  }

  /** The flag facts of the trace for a file that is resized: one callback, made while the
      flag is up, the flag up right after the resize call, and up until the callback. */
  lemma ResizedTraceKeepsFlag(file: FileInfo, callback: Effect)
    requires IsCallback(callback)
    ensures var trace := [SetProcessing(true), ResizeCalled(file), callback, SetProcessing(false)];
            && Callbacks(trace) == 1
            && (forall k :: 0 <= k < |trace| && IsCallback(trace[k]) ==> ProcessingAfter(trace[..k]))
            && (forall k :: 0 <= k < |trace| && trace[k].ResizeCalled? ==> ProcessingAfter(trace[..k + 1]))
            && (forall k :: 0 < k <= |trace| && Callbacks(trace[..k]) == 0 ==> ProcessingAfter(trace[..k]))
  {
    var trace := [SetProcessing(true), ResizeCalled(file), callback, SetProcessing(false)];
    assert trace[..2][..1] == trace[..1] == [SetProcessing(true)];
    assert trace[..3][..2] == trace[..2];
    assert trace[..1][..0] == [];
    assert Callbacks(trace[..1]) == 0;
    assert Callbacks(trace[..2]) == 0;
    assert Callbacks(trace[..3]) == 1;
    assert trace[..4][..3] == trace[..3] && trace[..4] == trace;
  }

  /** The resize of `lib/imageProcessor.ts` as the uploader awaits it: a failure rejects
      with an `Error`. */
  function Settle(r: Result<Resized, string>): (o: ResizeOutcome)
    ensures r.Ok? <==> o.Resolved?
    ensures r.Ok? ==> o.dataUrl == r.value.dataUrl
    ensures r.Err? ==> o == Rejected(ErrorObject(r.error))
  {
    match r
    case Ok(resized) => Resolved(resized.dataUrl)
    case Err(message) => Rejected(ErrorObject(message))
  }

  /** With the real resize the fallback message never appears: a valid file whose resize
      fails reports the failing stage's message. */
  lemma ResizeFailureReportsStage(file: FileInfo, loading: Loading)
    requires ValidateImageFile(file).valid
    requires ResizeImage(DefaultImageConfig, loading).Err?
    ensures ErrorReported(ResizeImage(DefaultImageConfig, loading).error)
              in HandleFile(file, Settle(ResizeImage(DefaultImageConfig, loading)))
    ensures ResizeImage(DefaultImageConfig, loading).error != FallbackMessage
  {
  }

  /** An invalid file is never resized and never reported as processed. */
  lemma InvalidFileNeverResized(file: FileInfo, resize: ResizeOutcome)
    requires !Acceptable(file)
    ensures forall k :: 0 <= k < |HandleFile(file, resize)| ==>
              !HandleFile(file, resize)[k].ResizeCalled? && !HandleFile(file, resize)[k].ImageProcessed?
  {
  }

  /** `handleDrop`: the file it hands to `handleFile`, if any. Drops are ignored while
      the uploader is disabled or busy; otherwise only the first file counts. */
  function HandleDrop(disabled: bool, isProcessing: bool, files: seq<FileInfo>): (handled: Option<FileInfo>)
    ensures handled.Some? <==> !disabled && !isProcessing && 0 < |files|
    ensures handled.Some? ==> handled.value == files[0]
  {
    if disabled || isProcessing then None
    else if |files| == 0 then None
    else Some(files[0])
  }

  /** `handleDrop` against the flag `handleFile` keeps: a drop that arrives while the
      resize is in flight or when a callback fires is ignored, and once `handleFile`
      has finished an enabled uploader takes the next drop again. */
  lemma DropsIgnoredWhileHandling(file: FileInfo, resize: ResizeOutcome, disabled: bool, files: seq<FileInfo>)
    ensures var trace := HandleFile(file, resize);
            forall k :: 0 <= k < |trace| && trace[k].ResizeCalled? ==>
              HandleDrop(disabled, ProcessingAfter(trace[..k + 1]), files).None?
    ensures var trace := HandleFile(file, resize);
            forall k :: 0 <= k < |trace| && IsCallback(trace[k]) ==>
              HandleDrop(disabled, ProcessingAfter(trace[..k]), files).None?
    ensures HandleDrop(false, ProcessingAfter(HandleFile(file, resize)), files).Some? <==> 0 < |files|
  {
  }
}

=== FILE: js_values.dfy ===
/** The JavaScript values that cross the boundaries of the client code: parsed JSON
    fields, their truthiness, and the things a `throw` can carry. */
module JsValues {
  import opened Outcomes

  /** A JSON value as `response.json()` yields it. Numbers, arrays and objects carry the
      text `String(v)` renders for them (`"0.93"`, `"1,2"`, `"[object Object]"`); the
      model does not compute JavaScript's number formatting. */
  datatype Json =
    | Null
    | Bool(b: bool)
    | Number(value: real, rendered: string)
    | Text(s: string)
    | Composite(rendered: string)

  /** JavaScript truthiness of a property read; `None` is `undefined`. */
  predicate Truthy(v: Option<Json>)
  {
    match v
    case None => false
    case Some(Null) => false
    case Some(Bool(b)) => b
    case Some(Number(x, _)) => x != 0.0
    case Some(Text(s)) => s != ""
    case Some(Composite(_)) => true
  }

  /** `String(v)`, as `new Error(v)` applies it to its message argument. */
  function Render(v: Json): string
  {
    match v
    case Null => "null"
    case Bool(b) => if b then "true" else "false"
    case Text(s) => s
    case Number(_, r) => r
    case Composite(r) => r
  }

  /** Property `key` of a parsed JSON object; `undefined` when it is absent. */
  function Field(fields: map<string, Json>, key: string): (v: Option<Json>)
    ensures v.Some? <==> key in fields
    ensures v.Some? ==> v.value == fields[key]
  {
    if key in fields then Some(fields[key]) else None
  }

  /** What a `throw` carries. `ServiceError` is an `MLServiceError` (an `Error` named
      `"MLServiceError"` with a `code`); `Failure` is any other `Error` with its `name`;
      `NonError` is a thrown value that is not an `Error` at all. */
  datatype Thrown =
    | ServiceError(message: string, code: string)
    | Failure(name: string, message: string)
    | NonError

  /** `e instanceof Error`. */
  predicate IsError(e: Thrown)
  {
    !e.NonError?
  }

  /** `e.name` of an `Error`. */
  function Name(e: Thrown): (n: string)
    requires IsError(e)
    ensures e.ServiceError? ==> n == "MLServiceError"
  {
    match e
    case ServiceError(_, _) => "MLServiceError"
    case Failure(name, _) => name
  }

  /** `e.message` of an `Error`. */
  function Message(e: Thrown): string
    requires IsError(e)
  {
    match e
    case ServiceError(m, _) => m
    case Failure(_, m) => m
  }
}

=== FILE: ml_service.dfy ===
/** `MLServiceClient.classify` of `lib/mlService.ts`: configuration, the data-URI strip,
    the request it sends, and how every transport outcome becomes a return or a throw.
    `fetch`, `response.json()` and the abort timer are foreign; what they did is a
    `Transport` value. */
module MlService {
  import opened Outcomes
  import opened Strings
  import opened JsValues

  const DefaultTimeout := 30000
  const NotConfiguredMessage := "ML service URL not configured"
  /** The two replacement messages, "Request timeout - ML service took too long to
      respond" and "Cannot connect to ML service. Please check if the service is
      running.", are written in pieces, which lets the verifier see which characters
      they hold; the connection message is split around its only `f` (in "if"). */
  const TimeoutMessage := "Request timeout" + " - ML service " + "took too long " + "to respond"
  const ConnectionMessage :=
    ("Cannot connect " + "to ML service. " + "Please check i") + "f" + (" the service " + "is running.")
  const TimeoutCode := "TIMEOUT"
  const ConnectionCode := "CONNECTION_ERROR"

  /** The two fields a client is constructed with. */
  datatype Client = Client(baseUrl: string, timeout: int)

  /** `value || ...` keeps a string argument exactly when it is defined and non-empty. */
  predicate Given(s: Option<string>)
  {
    s.Some? && s.value != ""
  }

  /** `new MLServiceClient(baseUrl?, timeout?)`, with `envUrl` the value of
      `NEXT_PUBLIC_ML_SERVICE_URL` at construction. */
  function NewClient(baseUrl: Option<string>, envUrl: Option<string>, timeout: Option<int>): (c: Client)
    ensures Given(baseUrl) ==> c.baseUrl == baseUrl.value
    ensures !Given(baseUrl) && Given(envUrl) ==> c.baseUrl == envUrl.value
    ensures c.baseUrl == "" <==> !Given(baseUrl) && !Given(envUrl)
    ensures c.timeout == (if timeout.Some? then timeout.value else 30000)
  {
    var url := if Given(baseUrl) then baseUrl.value else if Given(envUrl) then envUrl.value else "";
    Client(url, if timeout.None? then DefaultTimeout else timeout.value)
  }

  /** The payload `classify` sends for `image`: unchanged without a comma, otherwise
      `image.split(",")[1]`, the run between the first and the second comma. */
  function StripDataUriPrefix(image: string): (payload: string)
    ensures ',' !in image ==> payload == image
    ensures ',' in image ==> payload == FirstField(image[IndexOf(image, ',') + 1..], ',')
    ensures ',' !in payload
  {
    if ',' in image then Split(image, ',')[1] else image
  }

  /** Stripping is idempotent: a payload never carries another prefix to remove. */
  lemma StripIsIdempotent(image: string)
    ensures StripDataUriPrefix(StripDataUriPrefix(image)) == StripDataUriPrefix(image)
  {
  }

  /** A data URL loses exactly its header: `header + "," + data` with a comma-free header
      and data sends `data`. */
  lemma StripRemovesDataUrlHeader(header: string, data: string)
    requires ',' !in header && ',' !in data
    ensures StripDataUriPrefix(header + "," + data) == data
  {
  }

  /** The POST `classify` issues: URL, method (`verb`), content type and the `image` body field. */
  datatype Request = Request(url: string, verb: string, contentType: string, image: string)

  /** What `response.json()` produced: a rejection carrying the parser's `Error`,
      a literal `null`, or a value whose named properties are `fields` (empty for
      non-object values, whose properties read as `undefined`). */
  datatype Body =
    | Unparsable(parseError: Thrown)
    | NullBody
    | Parsed(fields: map<string, Json>)

  /** What the awaited `fetch` did: rejected (an abort rejects with an `Error` named
      `"AbortError"`), or answered with an HTTP status and a body. */
  datatype Transport =
    | Rejected(error: Thrown)
    | Responded(status: nat, body: Body)

  /** `response.ok`. */
  predicate Ok2xx(status: nat)
  {
    200 <= status <= 299
  }

  /** The object `classify` resolves with; each field copies the body's property,
      `None` standing for `undefined`. */
  datatype ClassificationResponse = ClassificationResponse(
    result: Option<Json>,
    confidence: Option<Json>,
    processingTime: Option<Json>,
    demoMode: Option<Json>)

  /** The code of the error thrown for a non-ok status. */
  function HttpCode(status: nat): (code: string)
    ensures StartsWith(code, "HTTP_")
    ensures |code| > 5 && IsNumeral(code[5..]) && ParseNat(code[5..]) == status
    ensures |code| > 6 ==> code[5] != '0'
  {
    var code := "HTTP_" + NatToString(status);
    assert code[5..] == NatToString(status);
    NatToStringRoundTrip(status);
    code
  }

  /** The `TypeError` a property read on a `null` body throws; `property` is the name
      read first (`detail` on the error path, `result` on the success path). */
  function NullRead(property: string): (e: Thrown)
    ensures IsError(e) && Name(e) == "TypeError" && Name(e) != "AbortError"
    ensures Message(e) == "Cannot read properties of null (reading '" + property + "')"
  {
    Failure("TypeError", "Cannot read properties of null (reading '" + property + "')")
  }

  /** Distinct statuses give distinct codes, so the code identifies the status. */
  lemma HttpCodeIdentifiesStatus(a: nat, b: nat)
    ensures HttpCode(a) == HttpCode(b) <==> a == b
  {
  }

  /** The error a non-ok response throws inside the `try`: an `MLServiceError` whose
      message is `detail || message || "ML service error: <status>"`, an unreadable body
      counting as `{}`; a `null` body makes the property read itself throw. */
  function HttpFailure(status: nat, body: Body): (e: Thrown)
    ensures body.NullBody? ==> e == NullRead("detail")
    ensures !body.NullBody? ==> e.ServiceError? && e.code == HttpCode(status)
    ensures body.Parsed? && Truthy(Field(body.fields, "detail")) ==>
              e.message == Render(body.fields["detail"])
    ensures body.Parsed? && !Truthy(Field(body.fields, "detail")) && Truthy(Field(body.fields, "message")) ==>
              e.message == Render(body.fields["message"])
    ensures !body.NullBody? && !(body.Parsed? && (Truthy(Field(body.fields, "detail")) || Truthy(Field(body.fields, "message")))) ==>
              e.message == "ML service error: " + NatToString(status)
  {
    match body
    case NullBody => NullRead("detail")
    case Unparsable(_) => ServiceError("ML service error: " + NatToString(status), HttpCode(status))
    case Parsed(fields) =>
      var detail := Field(fields, "detail");
      var message := Field(fields, "message");
      var text := if Truthy(detail) then Render(detail.value)
                  else if Truthy(message) then Render(message.value)
                  else "ML service error: " + NatToString(status);
      ServiceError(text, HttpCode(status))
  }

  /** The error an abort turns into. */
  const TimeoutError := ServiceError(TimeoutMessage, TimeoutCode)

  /** The error a connection failure turns into. */
  const ConnectionError := ServiceError(ConnectionMessage, ConnectionCode)

  /** The `catch` of `classify`: an `Error` named `"AbortError"` becomes the timeout
      error; otherwise an `Error` whose message mentions `"fetch"` becomes the
      connection error; anything else is rethrown unchanged. */
  function CatchClassify(e: Thrown): (r: Thrown)
    ensures IsError(e) && Name(e) == "AbortError" ==> r == TimeoutError
    ensures IsError(e) && Name(e) != "AbortError" && Contains(Message(e), "fetch") ==> r == ConnectionError
    ensures !(IsError(e) && (Name(e) == "AbortError" || Contains(Message(e), "fetch"))) ==> r == e
  {
    if IsError(e) && Name(e) == "AbortError" then TimeoutError
    else if IsError(e) && Contains(Message(e), "fetch") then ConnectionError
    else e
  }

  /** Neither replacement message mentions `"fetch"`; the timeout one has no `f` at all. */
  lemma TimeoutMessageAvoidsFetch()
    ensures !Contains(TimeoutMessage, "fetch")
  {
    NotContainsWithoutFirstChar(TimeoutMessage, "fetch");
  }

  /** The connection message's only `f` (in "if") is followed by a space. */
  lemma ConnectionMessageAvoidsFetch()
    ensures !Contains(ConnectionMessage, "fetch")
  {
    NotContainsAroundFirstChar("Cannot connect " + "to ML service. " + "Please check i", " the service " + "is running.", "fetch");
  }

  /** Classifying an error a second time changes nothing: the replacements are fixed points. */
  lemma CatchIsIdempotent(e: Thrown)
    ensures CatchClassify(CatchClassify(e)) == CatchClassify(e)
  {
    TimeoutMessageAvoidsFetch();
    ConnectionMessageAvoidsFetch();
  }

  /** Whatever reaches the `catch` leaves it as the timeout error, the connection error,
      or itself. */
  lemma CatchOutcomes(e: Thrown)
    ensures var r := CatchClassify(e);
            r == TimeoutError || r == ConnectionError || r == e
    ensures CatchClassify(e).ServiceError? && CatchClassify(e).code == TimeoutCode ==>
              (IsError(e) && Name(e) == "AbortError") || e.ServiceError?
  {
  }

  /** A run of `classify`: the request it sent, if any, and how the call ended. */
  datatype Call = Call(sent: Option<Request>, outcome: Result<ClassificationResponse, Thrown>)

  /** `classify(image)` on `client`, where `transport` is what the `fetch` and the body
      read did. The missing-URL error is thrown before the `try`; everything thrown
      inside the `try` (the HTTP error included) goes through `CatchClassify`. */
  function Classify(client: Client, image: string, transport: Transport): (call: Call)
    ensures call.sent.None? <==> client.baseUrl == ""
    ensures client.baseUrl == "" ==> call.outcome == Err(Failure("Error", NotConfiguredMessage))
    ensures client.baseUrl != "" ==>
              call.sent == Some(Request(client.baseUrl + "/predict", "POST", "application/json", StripDataUriPrefix(image)))
    ensures client.baseUrl != "" && transport.Rejected? ==>
              call.outcome == Err(CatchClassify(transport.error))
    ensures client.baseUrl != "" && transport.Responded? && !Ok2xx(transport.status) ==>
              call.outcome == Err(CatchClassify(HttpFailure(transport.status, transport.body)))
    ensures client.baseUrl != "" && transport.Responded? && Ok2xx(transport.status) && transport.body.Unparsable? ==>
              call.outcome == Err(CatchClassify(transport.body.parseError))
    ensures client.baseUrl != "" && transport.Responded? && Ok2xx(transport.status) && transport.body.NullBody? ==>
              call.outcome == Err(CatchClassify(NullRead("result")))
    ensures call.outcome.Ok? <==>
              client.baseUrl != "" && transport.Responded? && Ok2xx(transport.status) && transport.body.Parsed?
    ensures call.outcome.Ok? ==>
              var fields := transport.body.fields;
              call.outcome.value == ClassificationResponse(
                Field(fields, "result"), Field(fields, "confidence"),
                Field(fields, "processing_time"), Field(fields, "demo_mode"))
  {
    if client.baseUrl == "" then Call(None, Err(Failure("Error", NotConfiguredMessage)))
    else
      var request := Request(client.baseUrl + "/predict", "POST", "application/json", StripDataUriPrefix(image));
      var outcome :=
        match transport
        case Rejected(e) => Err(CatchClassify(e))
        case Responded(status, body) =>
          if !Ok2xx(status) then Err(CatchClassify(HttpFailure(status, body)))
          else match body
            case Unparsable(e) => Err(CatchClassify(e))
            case NullBody => Err(CatchClassify(NullRead("result")))
            case Parsed(fields) =>
              Ok(ClassificationResponse(
                   Field(fields, "result"), Field(fields, "confidence"),
                   Field(fields, "processing_time"), Field(fields, "demo_mode")));
      Call(Some(request), outcome)
  }

  /** An abort always surfaces as the timeout error. */
  lemma AbortIsTimeout(client: Client, image: string, message: string)
    requires client.baseUrl != ""
    ensures Classify(client, image, Rejected(Failure("AbortError", message))).outcome == Err(TimeoutError)
  {
  }

  /** A non-ok status whose error message mentions nothing about `"fetch"` throws an
      `MLServiceError` coded `HTTP_<status>`: the round trip through the `catch` keeps it. */
  lemma HttpErrorKeepsItsCode(client: Client, image: string, status: nat, body: Body)
    requires client.baseUrl != "" && !Ok2xx(status) && !body.NullBody?
    requires !Contains(HttpFailure(status, body).message, "fetch")
    ensures Classify(client, image, Responded(status, body)).outcome == Err(HttpFailure(status, body))
    ensures Classify(client, image, Responded(status, body)).outcome.error.code == HttpCode(status)
  {
  }

  /** Because the HTTP error is thrown inside the `try`, a server `detail` that mentions
      `"fetch"` turns it into the connection error and its status code is lost. */
  lemma HttpErrorMentioningFetchBecomesConnectionError(client: Client, image: string, status: nat, detail: string)
    requires client.baseUrl != "" && !Ok2xx(status) && Contains(detail, "fetch")
    ensures Classify(client, image, Responded(status, Parsed(map["detail" := Text(detail)]))).outcome == Err(ConnectionError)
  {
  }

  /** A 503 carrying `{"detail": "model overloaded"}` throws that message with code `HTTP_503`. */
  lemma Http503WithDetail(client: Client, image: string)
    requires client.baseUrl != ""
    ensures Classify(client, image, Responded(503, Parsed(map["detail" := Text("model overloaded")]))).outcome
              == Err(ServiceError("model overloaded", "HTTP_503"))
  {
    var body := Parsed(map["detail" := Text("model overloaded")]);
    DetailIsTheMessage(503, "model overloaded");
    NotContainsWithoutFirstChar("model overloaded", "fetch");
    HttpErrorKeepsItsCode(client, image, 503, body);
    Http503Code();
  }

  lemma DetailIsTheMessage(status: nat, detail: string)
    requires detail != ""
    ensures HttpFailure(status, Parsed(map["detail" := Text(detail)])) == ServiceError(detail, HttpCode(status))
  {
  }

  lemma Http503Code()
    ensures HttpCode(503) == "HTTP_503"
  {
    assert NatToString(5) == "5";
    assert NatToString(50) == "5" + "0";
    assert NatToString(503) == "5" + "0" + "3";
  }

  /** A 200 answer `{"result": "Good", "confidence": 0.93, "processing_time": 0.45}`
      resolves with those three values and an undefined `demo_mode`. */
  lemma SuccessExample(client: Client, image: string)
    requires client.baseUrl != ""
    ensures var fields := map["result" := Text("Good"), "confidence" := Number(0.93, "0.93"),
                              "processing_time" := Number(0.45, "0.45")];
            Classify(client, image, Responded(200, Parsed(fields))).outcome
              == Ok(ClassificationResponse(Some(Text("Good")), Some(Number(0.93, "0.93")),
                                           Some(Number(0.45, "0.45")), None))
  {
  }

  /** The success value is a field-for-field copy, whatever the fields hold: a result
      other than `"Good"`/`"Bad"` or a missing confidence is passed on, not rejected. */
  lemma SuccessIsUnchecked(client: Client, image: string, status: nat, fields: map<string, Json>)
    requires client.baseUrl != "" && Ok2xx(status)
    ensures var outcome := Classify(client, image, Responded(status, Parsed(fields))).outcome;
            outcome.Ok? && outcome.value.result == Field(fields, "result")
            && outcome.value.confidence == Field(fields, "confidence")
  {
  }
}

=== FILE: outcomes.dfy ===
/** Failure-carrying wrappers shared by every module of the model. */
module Outcomes {

  /** A value that may be absent: JavaScript `undefined`, Python `None`. */
  datatype Option<+T> = None | Some(value: T)

  /** The value of a call that either returns normally or throws `error`. */
  datatype Result<+T, +E> = Ok(value: T) | Err(error: E)
}

=== FILE: predictor.dfy ===
/** `predict_quality` of `ml-service/utils.py` (copied as-is into `app.py`): how the
    Keras output becomes a verdict and a confidence. The model itself and the random
    number generator are foreign; what they produced is an input. */
module Predictor {
  import opened Outcomes
  import opened Strings

  /** The image size `utils.py` resizes to. */
  const UtilsImageSize := 128

  /** A value of Python's `random.random()`: a real in [0, 1). */
  type Draw = r: real | 0.0 <= r < 1.0

  /** The two draws demo mode makes: `random.uniform(0.75, 0.99)` consumes
      `confidenceDraw`, the verdict coin is `coinDraw`. */
  datatype DemoDraws = DemoDraws(confidenceDraw: Draw, coinDraw: Draw)

  /** What `model.predict` did: raised with `message`, or returned a prediction whose
      first row is `row`. The input batch holds one image, so `|row|` is `shape[-1]`. */
  datatype ModelOutput = Raised(message: string) | Output(row: seq<real>)

  /** The `model` argument: `None` selects demo mode. */
  datatype Model = NoModel | Loaded(output: ModelOutput)

  /** The `(result, confidence)` pair `predict_quality` returns. */
  datatype Prediction = Prediction(result: string, confidence: real)

  /** The prefix of every `RuntimeError` message `predict_quality` raises. */
  const FailurePrefix := "Model prediction failed: "

  const DemoLow := 0.75
  const DemoHigh := 0.99

  /** `max(0.0, min(1.0, x))`. */
  function Clamp(x: real): (c: real)
    ensures 0.0 <= c <= 1.0
    ensures 0.0 <= x <= 1.0 ==> c == x
    ensures x < 0.0 ==> c == 0.0
    ensures x > 1.0 ==> c == 1.0
  {
    var upper := if x < 1.0 then x else 1.0;
    if upper > 0.0 then upper else 0.0
  }

  /** Clamping twice is clamping once. */
  lemma ClampIdempotent(x: real)
    ensures Clamp(Clamp(x)) == Clamp(x)
  {
  }

  /** Clamping keeps the order of confidences. */
  lemma ClampMonotone(x: real, y: real)
    requires x <= y
    ensures Clamp(x) <= Clamp(y)
  {
  }

  /** `np.argmax` of a row: the index of the first largest value. */
  function ArgMax(row: seq<real>): (i: nat)
    requires 0 < |row|
    ensures i < |row|
    ensures forall j :: 0 <= j < |row| ==> row[j] <= row[i]
    ensures forall j :: 0 <= j < i ==> row[j] < row[i]
    decreases |row|
  {
    if |row| == 1 then 0
    else
      var k := ArgMax(row[..|row| - 1]);
      if row[|row| - 1] > row[k] then |row| - 1 else k
  }

  /** `str(prediction.shape)` for a one-image batch of width `width`. */
  function ShapeText(width: nat): string
  {
    "(1, " + NatToString(width) + ")"
  }

  /** Demo mode: `random.uniform(0.75, 0.99)` is `0.75 + (0.99 - 0.75) * draw`, and the
      verdict is `"Good"` when the coin exceeds 0.5. */
  function Demo(draws: DemoDraws): (p: Prediction)
    ensures p.result in {"Good", "Bad"}
    ensures DemoLow <= p.confidence <= DemoHigh
    ensures p.result == "Good" <==> draws.coinDraw > 0.5
  {
    Prediction(if draws.coinDraw > 0.5 then "Good" else "Bad",
               DemoLow + (DemoHigh - DemoLow) * draws.confidenceDraw)
  }

  /** The `try` body after `model.predict` returned `row`: the branch on the output width,
      then the clamp. `Err` carries the message of the exception raised inside it. */
  function Interpret(row: seq<real>, classNames: seq<string>): (r: Result<Prediction, string>)
    ensures r.Ok? ==> 0.0 <= r.value.confidence <= 1.0
    ensures |row| == 1 ==> r.Ok?
    ensures |row| == 1 ==> r.value.result == (if row[0] > 0.5 then "Good" else "Bad")
    ensures |row| == 1 ==> r.value.confidence == Clamp(row[0])
    ensures |row| == 2 ==>
              var best := if row[1] > row[0] then 1 else 0;
              if best < |classNames| then r == Ok(Prediction(classNames[best], Clamp(row[best])))
              else r == Err("list index out of range")
    ensures |row| != 1 && |row| != 2 ==> r == Err("Unexpected model output shape: " + ShapeText(|row|))
  {
    if |row| == 1 then
      var confidence := row[0];
      Ok(Prediction(if confidence > 0.5 then "Good" else "Bad", Clamp(confidence)))
    else if |row| == 2 then
      var index := ArgMax(row);
      var confidence := row[index];
      if index < |classNames| then Ok(Prediction(classNames[index], Clamp(confidence)))
      else Err("list index out of range")
    else Err("Unexpected model output shape: " + ShapeText(|row|))
  }

  /** `predict_quality(model, image_array, class_names)`: `Err` is the message of the
      `RuntimeError` it raises. */
  function PredictQuality(model: Model, classNames: seq<string>, draws: DemoDraws): (r: Result<Prediction, string>)
    ensures model.NoModel? ==> r == Ok(Demo(draws))
    ensures r.Ok? ==> 0.0 <= r.value.confidence <= 1.0
    ensures r.Err? ==> StartsWith(r.error, FailurePrefix)
    ensures model.Loaded? && model.output.Raised? ==> r == Err(FailurePrefix + model.output.message)
    ensures model.Loaded? && model.output.Output? ==>
              var inner := Interpret(model.output.row, classNames);
              r == (if inner.Ok? then inner else Err(FailurePrefix + inner.error))
  {
    match model
    case NoModel => Ok(Demo(draws))
    case Loaded(Raised(message)) => Err(FailurePrefix + message)
    case Loaded(Output(row)) =>
      match Interpret(row, classNames)
      case Ok(p) => Ok(p)
      case Err(message) => Err(FailurePrefix + message)
  }

  /** With the class names `["Bad", "Good"]` every verdict is `"Good"` or `"Bad"`. */
  lemma VerdictIsBinary(model: Model, draws: DemoDraws)
    requires PredictQuality(model, ["Bad", "Good"], draws).Ok?
    ensures PredictQuality(model, ["Bad", "Good"], draws).value.result in {"Good", "Bad"}
  {
  }

  /** The sigmoid threshold is strict: exactly 0.5 is `"Bad"`. */
  lemma SigmoidHalfIsBad(classNames: seq<string>, draws: DemoDraws)
    ensures PredictQuality(Loaded(Output([0.5])), classNames, draws) == Ok(Prediction("Bad", 0.5))
  {
  }

  /** A width-1 `"Bad"` verdict reports the raw sigmoid value as its confidence, not
      `1 - value`: the confidence of a `"Bad"` verdict never exceeds 0.5. */
  lemma SigmoidBadReportsRawValue(v: real, classNames: seq<string>, draws: DemoDraws)
    requires v <= 0.5
    ensures PredictQuality(Loaded(Output([v])), classNames, draws) == Ok(Prediction("Bad", Clamp(v)))
    ensures Clamp(v) <= 0.5
  {
  }

  /** With two outputs a tie goes to index 0, the first class name. */
  lemma SoftmaxTieTakesFirstClass(v: real, classNames: seq<string>, draws: DemoDraws)
    requires 0 < |classNames|
    ensures PredictQuality(Loaded(Output([v, v])), classNames, draws).value.result == classNames[0]
  {
  }

  /** With two outputs the confidence is the larger one and the verdict names its index. */
  lemma SoftmaxPicksLargest(row: seq<real>, classNames: seq<string>, draws: DemoDraws)
    requires |row| == 2 && |classNames| == 2
    ensures var r := PredictQuality(Loaded(Output(row)), classNames, draws);
            && r.Ok?
            && (forall j :: 0 <= j < 2 ==> Clamp(row[j]) <= r.value.confidence)
            && r.value.result == classNames[ArgMax(row)]
  {
  }

  /** Every output width other than 1 and 2 fails with the shape in the message. */
  lemma OtherWidthsFail(row: seq<real>, classNames: seq<string>, draws: DemoDraws)
    requires |row| != 1 && |row| != 2
    ensures PredictQuality(Loaded(Output(row)), classNames, draws)
              == Err(FailurePrefix + ("Unexpected model output shape: " + ShapeText(|row|)))
  {
  }
}

=== FILE: server.dfy ===
/** The two prediction endpoints of `ml-service/app.py`: the stage ladder of `/predict`
    and the coarser checks of `/predict-file`. Decoding, PIL and numpy work, the model
    and the clock are foreign; what they did is an input. */
module Server {
  import opened Outcomes
  import opened Strings
  import opened Predictor
  import ImageProcessor

  /** The side length the service resizes to. */
  const ImageSize := 128

  /** Class names in the order of the model's two outputs. */
  const ClassNames := ["Bad", "Good"]

  /** A Python exception by the class the handlers distinguish; `str(e)` is `message`. */
  datatype PyException =
    | ValueError(message: string)
    | RuntimeError(message: string)
    | OtherException(message: string)

  /** `HTTPException(status_code, detail)`. */
  datatype HttpException = HttpException(status: nat, detail: string)

  /** The `PredictionResponse` a successful request returns. */
  datatype PredictionResponse = PredictionResponse(result: string, confidence: real, processingTime: real, demoMode: bool)

  /** A step that either completed or raised. */
  datatype Step = Completed | Threw(exc: PyException)

  /** What decoding the upload did: raised (bad base64, unreadable image), or opened an
      image whose `image.size` is `width` by `height`. */
  datatype Decoding = Undecodable(message: string) | Opened(width: nat, height: nat)

  /** `preprocess_image`: `pil` is what the resize, convert and normalise work did; any
      exception it raises comes out as a `ValueError`. */
  function PreprocessImage(pil: Step): (r: Step)
    ensures r.Threw? <==> pil.Threw?
    ensures r.Threw? ==> r.exc == ValueError("Image preprocessing failed: " + pil.exc.message)
  {
    match pil
    case Completed => Completed
    case Threw(e) => Threw(ValueError("Image preprocessing failed: " + e.message))
  }

  /** `predict_quality(processed_image)` of `app.py`: the shared interpretation with
      `CLASS_NAMES`, its failure raised as a `RuntimeError`. */
  function PredictStep(model: Model, draws: DemoDraws): (r: Result<Prediction, PyException>)
    ensures r.Err? ==> r.error.RuntimeError? && StartsWith(r.error.message, FailurePrefix)
    ensures r.Ok? ==> r.value.result in {"Good", "Bad"} && 0.0 <= r.value.confidence <= 1.0
    ensures r.Ok? <==> PredictQuality(model, ClassNames, draws).Ok?
    ensures r.Ok? ==> r.value == PredictQuality(model, ClassNames, draws).value
    ensures r.Err? ==> r.error == RuntimeError(PredictQuality(model, ClassNames, draws).error)
  {
    match PredictQuality(model, ClassNames, draws)
    case Ok(p) => Ok(p)
    case Err(message) => Err(RuntimeError(message))
  }

  /** The `try` of `classify_fruit` over what each stage did. The first failing stage
      decides: decoding and preprocessing `ValueError`s are 400, a prediction
      `RuntimeError` is 500, any other exception is 500 "Unexpected error"; the
      `HTTPException`s raised inside pass through the outer handler unchanged. */
  function PredictLadder(decoding: Decoding, preprocessed: Step, predicted: Result<Prediction, PyException>,
                         modelLoaded: bool, elapsed: real): (r: Result<PredictionResponse, HttpException>)
    ensures decoding.Undecodable? ==> r == Err(HttpException(400, "Invalid image data: " + decoding.message))
    ensures decoding.Opened? && (decoding.width == 0 || decoding.height == 0) ==>
              r == Err(HttpException(400, "Image has invalid dimensions"))
    ensures r.Ok? <==> decoding.Opened? && decoding.width > 0 && decoding.height > 0
                       && preprocessed.Completed? && predicted.Ok?
    ensures r.Ok? ==> r.value == PredictionResponse(predicted.value.result, predicted.value.confidence, elapsed, !modelLoaded)
    ensures r.Err? ==> r.error.status in {400, 500}
    ensures r.Err? && r.error.status == 400 <==>
              decoding.Undecodable? || decoding.width == 0 || decoding.height == 0
              || (preprocessed.Threw? && preprocessed.exc.ValueError?)
    ensures decoding.Opened? && decoding.width > 0 && decoding.height > 0 && preprocessed.Threw? ==>
              r == Err(if preprocessed.exc.ValueError? then HttpException(400, preprocessed.exc.message)
                       else HttpException(500, "Unexpected error: " + preprocessed.exc.message))
    ensures decoding.Opened? && decoding.width > 0 && decoding.height > 0 && preprocessed.Completed? && predicted.Err? ==>
              r == Err(if predicted.error.RuntimeError? then HttpException(500, predicted.error.message)
                       else HttpException(500, "Unexpected error: " + predicted.error.message))
  {
    if decoding.Undecodable? then Err(HttpException(400, "Invalid image data: " + decoding.message))
    else if decoding.width == 0 || decoding.height == 0 then Err(HttpException(400, "Image has invalid dimensions"))
    else if preprocessed.Threw? then
      match preprocessed.exc
      case ValueError(m) => Err(HttpException(400, m))
      case _ => Err(HttpException(500, "Unexpected error: " + preprocessed.exc.message))
    else if predicted.Err? then
      match predicted.error
      case RuntimeError(m) => Err(HttpException(500, m))
      case _ => Err(HttpException(500, "Unexpected error: " + predicted.error.message))
    else
      var p := predicted.value;
      Ok(PredictionResponse(p.result, p.confidence, elapsed, !modelLoaded))
  }

  /** `POST /predict` (`classify_fruit`): `pil` is what preprocessing's library work
      did and `elapsed` what the clock measured. */
  function ClassifyFruit(decoding: Decoding, pil: Step, model: Model, draws: DemoDraws, elapsed: real)
    : (r: Result<PredictionResponse, HttpException>)
    ensures r.Ok? ==> (r.value.demoMode <==> model.NoModel?)
    ensures r.Ok? ==> r.value.result in {"Good", "Bad"} && 0.0 <= r.value.confidence <= 1.0
    ensures model.NoModel? && r.Ok? ==> DemoLow <= r.value.confidence <= DemoHigh
    ensures r.Err? && r.error.status == 400 <==> decoding.Undecodable? || decoding.width == 0 || decoding.height == 0 || pil.Threw?
    ensures r.Err? && r.error.status == 500 ==> StartsWith(r.error.detail, FailurePrefix)
    ensures r.Ok? <==> decoding.Opened? && decoding.width > 0 && decoding.height > 0 && pil.Completed?
                       && PredictQuality(model, ClassNames, draws).Ok?
    ensures r.Err? ==> r.error.status in {400, 500}
    ensures decoding.Undecodable? ==> r == Err(HttpException(400, "Invalid image data: " + decoding.message))
    ensures decoding.Opened? && decoding.width > 0 && decoding.height > 0 && pil.Threw? ==>
              r == Err(HttpException(400, "Image preprocessing failed: " + pil.exc.message))
    ensures r.Err? && r.error.status == 500 ==>
              PredictQuality(model, ClassNames, draws).Err? && r.error.detail == PredictQuality(model, ClassNames, draws).error
    ensures r.Ok? ==> PredictQuality(model, ClassNames, draws).Ok?
    ensures r.Ok? ==>
              r.value == PredictionResponse(PredictQuality(model, ClassNames, draws).value.result,
                                            PredictQuality(model, ClassNames, draws).value.confidence,
                                            elapsed, model.NoModel?)
  {
    PredictLadder(decoding, PreprocessImage(pil), PredictStep(model, draws), model.Loaded?, elapsed)
  }

  /** The dimension check sits between decoding and preprocessing: a zero-sized image is
      rejected whatever the later stages would have done. */
  lemma ZeroSizeRejectedBeforePreprocessing(width: nat, height: nat, pil: Step, model: Model, draws: DemoDraws, elapsed: real)
    requires width == 0 || height == 0
    ensures ClassifyFruit(Opened(width, height), pil, model, draws, elapsed)
              == Err(HttpException(400, "Image has invalid dimensions"))
  {
  }

  /** A decoding failure wins over every later stage. */
  lemma DecodeFailureComesFirst(message: string, pil: Step, model: Model, draws: DemoDraws, elapsed: real)
    ensures var r := ClassifyFruit(Undecodable(message), pil, model, draws, elapsed);
            r.Err? && r.error.status == 400 && StartsWith(r.error.detail, "Invalid image data: ")
  {
  }

  /** An exception outside the class each stage expects reaches the generic handler. */
  lemma UnexpectedOnlyForOtherExceptions(decoding: Decoding, preprocessed: Step,
                                         predicted: Result<Prediction, PyException>, modelLoaded: bool, elapsed: real)
    requires decoding.Opened? && decoding.width > 0 && decoding.height > 0
    requires (preprocessed.Threw? && !preprocessed.exc.ValueError?)
             || (preprocessed.Completed? && predicted.Err? && !predicted.error.RuntimeError?)
    ensures var r := PredictLadder(decoding, preprocessed, predicted, modelLoaded, elapsed);
            r.Err? && r.error.status == 500 && StartsWith(r.error.detail, "Unexpected error: ")
  {
  }

  const FileProcessingPrefix := "Error processing file: "

  /** `POST /predict-file` (`classify_fruit_file`): `contentType` is the upload's declared
      type (`None` when absent) and `opening` what reading and opening the bytes did.
      Only the type check answers 400; every other failure, preprocessing included, is
      500 "Error processing file". There is no dimension check here. */
  function ClassifyFruitFile(contentType: Option<string>, opening: Decoding, pil: Step, model: Model,
                             draws: DemoDraws, elapsed: real): (r: Result<PredictionResponse, HttpException>)
    ensures contentType.Some? && !StartsWith(contentType.value, "image/") ==>
              r == Err(HttpException(400, "File must be an image"))
    ensures r.Err? && r.error.status == 400 <==> contentType.Some? && !StartsWith(contentType.value, "image/")
    ensures r.Err? && r.error.status != 400 ==> r.error.status == 500 && StartsWith(r.error.detail, FileProcessingPrefix)
    ensures r.Ok? <==> contentType.Some? && StartsWith(contentType.value, "image/") && opening.Opened?
                       && pil.Completed? && PredictStep(model, draws).Ok?
    ensures r.Ok? ==> (r.value.demoMode <==> model.NoModel?)
    ensures r.Ok? ==> PredictQuality(model, ClassNames, draws).Ok?
    ensures r.Ok? ==>
              r.value == PredictionResponse(PredictQuality(model, ClassNames, draws).value.result,
                                            PredictQuality(model, ClassNames, draws).value.confidence,
                                            elapsed, model.NoModel?)
    ensures contentType.Some? && StartsWith(contentType.value, "image/") && opening.Undecodable? ==>
              r == Err(HttpException(500, FileProcessingPrefix + opening.message))
    ensures contentType.Some? && StartsWith(contentType.value, "image/") && opening.Opened? && pil.Threw? ==>
              r == Err(HttpException(500, FileProcessingPrefix + ("Image preprocessing failed: " + pil.exc.message)))
    ensures contentType.Some? && StartsWith(contentType.value, "image/") && opening.Opened? && pil.Completed?
            && PredictQuality(model, ClassNames, draws).Err? ==>
              r == Err(HttpException(500, FileProcessingPrefix + PredictQuality(model, ClassNames, draws).error))
  {
    if contentType.None? then
      Err(HttpException(500, FileProcessingPrefix + "'NoneType' object has no attribute 'startswith'"))
    else if !StartsWith(contentType.value, "image/") then
      Err(HttpException(400, "File must be an image"))
    else if opening.Undecodable? then
      Err(HttpException(500, FileProcessingPrefix + opening.message))
    else
      match PreprocessImage(pil)
      case Threw(e) => Err(HttpException(500, FileProcessingPrefix + e.message))
      case Completed =>
        match PredictStep(model, draws)
        case Err(e) => Err(HttpException(500, FileProcessingPrefix + e.message))
        case Ok(p) => Ok(PredictionResponse(p.result, p.confidence, elapsed, model.NoModel?))
  }

  /** A preprocessing failure is 400 on `/predict` but 500 on `/predict-file`. */
  lemma PreprocessFailureStatusDiffers(width: nat, height: nat, message: string, model: Model, draws: DemoDraws, elapsed: real)
    requires width > 0 && height > 0
    ensures ClassifyFruit(Opened(width, height), Threw(OtherException(message)), model, draws, elapsed).error.status == 400
    ensures ClassifyFruitFile(Some("image/png"), Opened(width, height), Threw(OtherException(message)), model, draws, elapsed).error.status == 500
  {
  }

  /** The service and the client agree on the image size: 128, the side of the default
      client configuration and the size `utils.py` resizes to. */
  lemma ImageSizeMatchesClient()
    ensures ImageSize == ImageProcessor.DefaultImageConfig.width == ImageProcessor.DefaultImageConfig.height
    ensures ImageSize == UtilsImageSize
  {
  }
}

=== FILE: strings.dfy ===
/** String operations of the host languages that the model needs, over `seq<char>`. */
module Strings {

  /** `s.includes(sub)` in JavaScript, `sub in s` in Python. */
  predicate Contains(s: string, sub: string)
    decreases |s|
  {
    |sub| <= |s| && (s[..|sub|] == sub || (0 < |s| && Contains(s[1..], sub)))
  }

  /** `sub` occurs in `s` starting at offset `i`. */
  predicate OccursAt(s: string, sub: string, i: int)
  {
    0 <= i <= |s| - |sub| && s[i..i + |sub|] == sub
  }

  /** `s.startsWith(prefix)`. */
  predicate StartsWith(s: string, prefix: string)
  {
    OccursAt(s, prefix, 0)
  }

  /** `Contains` agrees with the positional reading: `sub` occurs at some offset of `s`. */
  lemma {:induction false} ContainsIffOccurs(s: string, sub: string)
    ensures Contains(s, sub) <==> exists i :: OccursAt(s, sub, i)
    decreases |s|
  {
    if |sub| <= |s| && s[..|sub|] == sub {
      assert OccursAt(s, sub, 0);
    } else if |sub| <= |s| && 0 < |s| {
      ContainsIffOccurs(s[1..], sub);
      forall i | OccursAt(s[1..], sub, i)
        ensures OccursAt(s, sub, i + 1)
      {
        assert s[i + 1..i + 1 + |sub|] == s[1..][i..i + |sub|];
      }
      forall i | OccursAt(s, sub, i)
        ensures OccursAt(s[1..], sub, i - 1)
      {
        assert i != 0;
        assert s[1..][i - 1..i - 1 + |sub|] == s[i..i + |sub|];
      }
    }
  }

  /** A text without the first character of `sub` cannot contain `sub`. */
  lemma NotContainsWithoutFirstChar(s: string, sub: string)
    requires 0 < |sub| && sub[0] !in s
    ensures !Contains(s, sub)
  {
  }

  /** A text whose only copy of `sub[0]` is not followed by `sub[1]` cannot contain `sub`. */
  lemma NotContainsAroundFirstChar(a: string, b: string, sub: string)
    requires 2 <= |sub| && sub[0] !in a && sub[0] !in b
    requires 0 < |b| && b[0] != sub[1]
    ensures !Contains(a + [sub[0]] + b, sub)
  {
    var s := a + [sub[0]] + b;
    forall i | 0 <= i <= |s| - |sub|
      ensures !OccursAt(s, sub, i)
    {
      var w := s[i..i + |sub|];
      if i < |a| {
        assert w[0] == a[i];
      } else if i > |a| {
        assert w[0] == b[i - |a| - 1];
      } else {
        assert w[1] == b[0];
      }
    }
    ContainsIffOccurs(s, sub);
  }

  /** Position of the first `c` in `s`: `s.indexOf(c)` when `c` is present. */
  function IndexOf(s: string, c: char): (i: nat)
    requires c in s
    ensures i < |s| && s[i] == c && c !in s[..i]
  {
    if s[0] == c then 0 else 1 + IndexOf(s[1..], c)
  }

  /** The text up to (not including) the first `sep`, or all of `s` when there is none. */
  function FirstField(s: string, sep: char): (f: string)
  {
    if sep in s then s[..IndexOf(s, sep)] else s
  }

  /** Glues `parts` back together with `sep` between neighbours: `parts.join(sep)`. */
  function Join(parts: seq<string>, sep: char): string
  {
    if |parts| == 0 then ""
    else if |parts| == 1 then parts[0]
    else parts[0] + [sep] + Join(parts[1..], sep)
  }

  /** `s.split(sep)` for a one-character separator: the maximal `sep`-free runs of `s`. */
  function Split(s: string, sep: char): (parts: seq<string>)
    ensures 1 <= |parts|
    ensures forall k :: 0 <= k < |parts| ==> sep !in parts[k]
    ensures Join(parts, sep) == s
    ensures parts[0] == FirstField(s, sep)
    ensures sep in s <==> 2 <= |parts|
    ensures sep in s ==> parts[1..] == Split(s[IndexOf(s, sep) + 1..], sep)
    decreases |s|
  {
    if sep !in s then [s]
    else
      var i := IndexOf(s, sep);
      assert s == s[..i] + [sep] + s[i + 1..];
      [s[..i]] + Split(s[i + 1..], sep)
  }

  /** The decimal digit for `d`. */
  function Digit(d: nat): (c: char)
    requires d < 10
    ensures '0' <= c <= '9'
  {
    "0123456789"[d]
  }

  /** The value of decimal digit `c`. */
  function DigitValue(c: char): (d: nat)
    requires '0' <= c <= '9'
    ensures d < 10
  {
    (c as int - '0' as int) as nat
  }

  /** `String(n)` / `str(n)` for a natural number: its decimal numeral, no leading zeros. */
  function NatToString(n: nat): (s: string)
    ensures 0 < |s|
    ensures IsNumeral(s)
    ensures |s| > 1 ==> s[0] != '0'
    decreases n
  {
    if n < 10 then [Digit(n)] else NatToString(n / 10) + [Digit(n % 10)]
  }

  /** Every character of `s` is a decimal digit. */
  predicate IsNumeral(s: string)
  {
    forall k :: 0 <= k < |s| ==> '0' <= s[k] <= '9'
  }

  /** Reads a decimal numeral back into its value. */
  function ParseNat(s: string): nat
    requires IsNumeral(s)
    decreases |s|
  {
    if |s| == 0 then 0 else 10 * ParseNat(s[..|s| - 1]) + DigitValue(s[|s| - 1])
  }

  lemma DigitRoundTrip(d: nat)
    requires d < 10
    ensures DigitValue(Digit(d)) == d
  {
  }

  /** Rendering a number and reading it back gives the number: the rendering loses nothing. */
  lemma {:induction false} NatToStringRoundTrip(n: nat)
    ensures ParseNat(NatToString(n)) == n
    decreases n
  {
    var s := NatToString(n);
    if n < 10 {
      DigitRoundTrip(n);
    } else {
      NatToStringRoundTrip(n / 10);
      assert s[..|s| - 1] == NatToString(n / 10);
      DigitRoundTrip(n % 10);
    }
  }
}
